=== FILE: README.md ===
# Mask-utility masking engine in Dafny

This project models the core of Mask-utility, a Java library that renders
objects as text for log lines and masks the fields annotated `@Sensitive`.
It covers these parts:

- **Rendering engine** (`MaskingService.maskData` and its helpers). It
  dispatches on the kind of value: null, primitive or wrapper, `String`,
  collection, map, array or plain object. It walks an object's fields across
  its class hierarchy, skipping static and synthetic fields. Unmarked
  composites are rendered recursively. Marked fields are masked with their
  strategy.
- **The four strategies** (`MaskStrategy`):
  - FULL
  - FIRST_LAST
  - LAST_FOUR
  - CUSTOM, which falls back to FULL when the custom masker cannot be built
    or throws.
- **`DataMasker.defaultMask`**.
- **`MaskingHelper`**:
  - the single-value entry point, with its fallback for when no service has
    been wired in;
  - the batch entry point.

Modules, one per source concept:

| module | contents |
|---|---|
| `Text` (`text.dfy`) | `Repeat` (`String.valueOf(c).repeat(n)`); `Join`, the reference shape that the engine's loops are proved to produce; small sequence lemmas |
| `MaskStrategy` (`mask_strategy.dfy`) | the strategy enumeration |
| `DataMasker` (`data_masker.dfy`) | the custom-masker contract (`CustomMasker`, `Invocation`) and `DefaultMask` |
| `Annotation` (`annotation.dfy`) | the resolved `@Sensitive` marker and its defaults (FULL, `'*'`, no custom masker) |
| `Values` (`values.dfy`) | the values the engine renders, see below |
| `MaskingService` (`masking_service.dfy`) | the strategies, `maskValue`, `getAllFields` and the recursive renderer |
| `MaskingServiceProofs` (`masking_service_proofs.dfy`) | the rendering shape of each kind of value, and what masking hides |
| `MaskingHelper` (`masking_helper.dfy`) | `mask(obj)` and `mask(objects...)` |
| `Examples` (`examples.dfy`) | worked inputs with the exact output text |

Reflection is resolved in advance. A `Value` is one of:

- `Null`;
- `Prim`: a primitive, wrapper or `Number`, carrying its `toString()` text;
- `Str`;
- `Coll`: items in iteration order;
- `Map`: entries in entry order;
- `Arr`;
- `Obj`: its simple class name and its class chain, runtime class first,
  stopping before `Object`.

Each `Field` records:

- its name;
- whether it is static;
- whether it is synthetic;
- its `@Sensitive` marker, if any;
- whether reading it on this object yields a value or is refused.

`toString()` of an arbitrary object is not visible to the engine, so it is
the function parameter `toText`. `Stringify` models `String.valueOf`: null
gives `"null"`, a leaf gives its own text, anything else gives `toText`.

The renderer is a family of total functions. Their loops mirror the
source's `first` flag, or its index for arrays. Termination follows the
structure of the value. A ghost `parent` argument carries the value whose
children a loop is walking.

## Model

Source paths are relative to the repository root.

| member | source | states |
|---|---|---|
| MaskingService.MaskFull | src/main/java/com/utility/masking/service/MaskingService.java:121-126 | An empty value is returned unchanged. Otherwise the result has the value's length and every character is the mask character. |
| MaskingService.MaskFirstLast | src/main/java/com/utility/masking/service/MaskingService.java:131-141 | The result has the value's length. Values of at most 2 characters are returned as they are. Longer ones keep their first and last character, and every interior character is the mask character. |
| MaskingService.MaskLastFour | src/main/java/com/utility/masking/service/MaskingService.java:146-156 | The result has the value's length. Values of at most 4 characters are returned as they are. Longer ones keep their last 4 characters verbatim, and every earlier character is the mask character. |
| MaskingService.MaskCustom | src/main/java/com/utility/masking/service/MaskingService.java:161-170 | The result is the masker's answer, or `"null"` when the masker returns null. It is exactly the FULL result when the masker class cannot be instantiated or its `mask` throws. |
| MaskingService.MaskValue | src/main/java/com/utility/masking/service/MaskingService.java:101-116 | A null value gives `"null"`. A non-null value gives the field's strategy (FULL, FIRST_LAST, LAST_FOUR or CUSTOM) applied to the value's `toString()` text. So under FULL, FIRST_LAST and LAST_FOUR the result is as long as that text, and under FULL every character is the mask character. |
| MaskingService.CustomDefaultMaskerIsFull | src/main/java/com/utility/masking/service/MaskingService.java:161-170 | A CUSTOM field whose masker just uses the interface's default `mask` is masked exactly as FULL masks it. |
| MaskingService.DefaultMaskIsMaskFull | src/main/java/com/utility/masking/masker/DataMasker.java:20-25 | The interface's default mask and the service's FULL strategy agree on every input. |
| MaskingService.AllFields | src/main/java/com/utility/masking/service/MaskingService.java:238-245 | The flattened field list holds exactly as many fields as the classes of the chain declare together. |
| MaskingService.AllFieldsOrder | src/main/java/com/utility/masking/service/MaskingService.java:238-245 | Class k's declared fields form one contiguous block, in the order `getDeclaredFields` returns them, right after the fields of the classes before it. So subclass fields come before superclass fields. |
| MaskingService.FieldOrigin | src/main/java/com/utility/masking/service/MaskingService.java:238-245 | Every flattened field is a declared field of some class of the chain. |
| MaskingService.MaskData | src/main/java/com/utility/masking/service/MaskingService.java:22-48 | No contract of its own. It dispatches on the kind of value. `LeafRendersAsText`, `CollectionRendering`, `MapRendering`, `ArrayRendering` and `ObjectRenderingPieces` characterise its result for each kind. |
| MaskingService.MaskObject | src/main/java/com/utility/masking/service/MaskingService.java:53-96 | No contract of its own. `ObjectRenderingPieces` characterises it for every object, and `ObjectRendering` for objects whose fields are all readable. |
| MaskingService.MaskFields | src/main/java/com/utility/masking/service/MaskingService.java:59-92 | No contract of its own. `MaskFieldsStep` gives one turn of the loop, `SkipsStaticAndSynthetic` the skipping, `MaskFieldsPieces` the whole output and `MaskFieldsJoin` the all-readable case. |
| MaskingService.FieldText | src/main/java/com/utility/masking/service/MaskingService.java:79-88 | No contract of its own. `MarkedFieldIsMaskValue` and `SensitiveFieldHidesValue` state that a marked field is stringified and then masked, never descended into. `UnmarkedFieldIsMaskData` states that an unmarked field prints as `maskData` prints its value, for every value. |
| MaskingService.MaskCollection | src/main/java/com/utility/masking/service/MaskingService.java:175-191 | No contract of its own. See `CollectionRendering`. |
| MaskingService.MaskItems | src/main/java/com/utility/masking/service/MaskingService.java:180-190 | No contract of its own. See `MaskItemsJoin`. |
| MaskingService.MaskMap | src/main/java/com/utility/masking/service/MaskingService.java:196-212 | No contract of its own. See `MapRendering`. |
| MaskingService.MaskEntries | src/main/java/com/utility/masking/service/MaskingService.java:201-211 | No contract of its own. See `MaskEntriesJoin`. |
| MaskingService.MaskArray | src/main/java/com/utility/masking/service/MaskingService.java:217-233 | No contract of its own. See `ArrayRendering` and `ArrayRendersLikeCollection`. |
| MaskingService.MaskElems | src/main/java/com/utility/masking/service/MaskingService.java:223-232 | No contract of its own. See `MaskElemsJoin`. |
| Values.Stringify | src/main/java/com/utility/masking/service/MaskingService.java:86-88 | No contract of its own. It is `String.valueOf`: `"null"` for null, a leaf's own text, and `toString()` otherwise. `LeafRendersAsText` and `MapRendering` state where the engine uses it. |
| Values.IsPrimitiveOrWrapper | src/main/java/com/utility/masking/service/MaskingService.java:250-262 | No contract of its own. It is the tag test for primitives, wrappers, `Number`s and `String`. `LeafRendersAsText` states that such values print as their own text. |
| MaskingServiceProofs.LeafRendersAsText | src/main/java/com/utility/masking/service/MaskingService.java:22-33 | Null renders as `"null"`. A primitive, wrapper or string renders as its own text, unmasked. |
| MaskingServiceProofs.MaskItemsJoin | src/main/java/com/utility/masking/service/MaskingService.java:180-190 | The collection loop with its `first` flag prints the items' renderings joined by `", "`. Entered later in the loop, it prints them with a leading `", "`. |
| MaskingServiceProofs.CollectionRendering | src/main/java/com/utility/masking/service/MaskingService.java:175-191 | A collection renders as `"[" + join(", ", maskData of each item, in order) + "]"`, which is `"[]"` when it is empty. |
| MaskingServiceProofs.MaskElemsJoin | src/main/java/com/utility/masking/service/MaskingService.java:223-232 | The array loop from index i prints the renderings of elements i onward joined by `", "`. A leading `", "` is added when i > 0. |
| MaskingServiceProofs.ArrayRendering | src/main/java/com/utility/masking/service/MaskingService.java:217-233 | An array renders as `"[" + join(", ", maskData of each element, by index) + "]"`, which is `"[]"` when it is empty. |
| MaskingServiceProofs.ArrayRendersLikeCollection | src/main/java/com/utility/masking/service/MaskingService.java:217-233 | The array's index loop and the collection's iterator loop print the same sequence identically. |
| MaskingServiceProofs.MaskEntriesJoin | src/main/java/com/utility/masking/service/MaskingService.java:201-211 | The map loop prints the `key=value` entries joined by `", "`. |
| MaskingServiceProofs.MapRendering | src/main/java/com/utility/masking/service/MaskingService.java:196-212 | A map renders as `"{" + join(", ", key text + "=" + maskData(value)) + "}"`, in entry order, which is `"{}"` when it is empty. Keys are printed as plain text, never masked. |
| MaskingServiceProofs.SkipsStaticAndSynthetic | src/main/java/com/utility/masking/service/MaskingService.java:61-66 | The field loop prints exactly what it prints for the fields that are neither static nor synthetic. |
| MaskingServiceProofs.UnmarkedFieldIsMaskData | src/main/java/com/utility/masking/service/MaskingService.java:82-88 | For every value, an unmarked field prints exactly what `maskData` prints for it. A composite, whether object, collection, map or array, is recursed into. Null, primitives and strings print as their plain text. |
| MaskingServiceProofs.MarkedFieldIsMaskValue | src/main/java/com/utility/masking/service/MaskingService.java:79-81 | For every value, a marked field prints `maskValue` of it, that is, its strategy applied to its `toString()` text. |
| MaskingServiceProofs.MaskFieldsStep | src/main/java/com/utility/masking/service/MaskingService.java:61-92 | One turn of the field loop. A skipped field prints nothing and keeps `first`. An unreadable field prints `inaccessible` and keeps `first`. A readable field prints its separator (unless first), `name=` and its value text, and clears `first`. |
| MaskingServiceProofs.MaskFieldsJoin | src/main/java/com/utility/masking/service/MaskingService.java:59-92 | For kept, readable fields, the loop prints their `name=text` entries joined by `", "`. |
| MaskingServiceProofs.ObjectRendering | src/main/java/com/utility/masking/service/MaskingService.java:53-96 | An object whose kept fields are all readable renders as `SimpleName{`, then `name=text` entries joined by `", "` in getAllFields order, then `}`. Objects with unreadable fields are covered by `ObjectRenderingPieces`. |
| MaskingServiceProofs.MaskFieldsPieces | src/main/java/com/utility/masking/service/MaskingService.java:61-92 | The field loop over non-skipped fields prints one piece per field, in order, whether or not each can be read. An unreadable field's piece is `inaccessible`. A readable field's piece is `name=text`, preceded by `", "` exactly when an earlier field was readable or the loop did not start as the first. |
| MaskingServiceProofs.ObjectRenderingPieces | src/main/java/com/utility/masking/service/MaskingService.java:53-96 | Every object renders as `SimpleName{`, then the pieces of its non-skipped fields in getAllFields order, then `}`. Unreadable fields are included: each prints `inaccessible` with no separator, and no `name=`. |
| MaskingServiceProofs.MaskFullIdempotent | src/main/java/com/utility/masking/service/MaskingService.java:121-126 | Applying FULL to a FULL-masked value changes nothing. |
| MaskingServiceProofs.MaskFirstLastIdempotent | src/main/java/com/utility/masking/service/MaskingService.java:131-141 | Applying FIRST_LAST to a FIRST_LAST-masked value changes nothing. |
| MaskingServiceProofs.MaskLastFourIdempotent | src/main/java/com/utility/masking/service/MaskingService.java:146-156 | Applying LAST_FOUR to a LAST_FOUR-masked value changes nothing. |
| MaskingServiceProofs.FullHides | src/main/java/com/utility/masking/service/MaskingService.java:121-126 | FULL output depends only on the length of the value. |
| MaskingServiceProofs.FirstLastHides | src/main/java/com/utility/masking/service/MaskingService.java:131-141 | FIRST_LAST output depends only on the length and the two end characters (on the whole value when it is at most 2 long). |
| MaskingServiceProofs.LastFourHides | src/main/java/com/utility/masking/service/MaskingService.java:146-156 | LAST_FOUR output depends only on the length and the last 4 characters (on the whole value when it is at most 4 long). |
| MaskingServiceProofs.SensitiveFieldHidesValue | src/main/java/com/utility/masking/service/MaskingService.java:79-81 | Take two non-null values whose `toString()` texts agree on what the strategy exposes. A marked field renders identically with either, whatever their structure. |
| MaskingServiceProofs.MaskFieldsCongruence | src/main/java/com/utility/masking/service/MaskingService.java:61-92 | Two field lists that agree pairwise on name, modifiers, readability and value text make the loop print the same. |
| MaskingServiceProofs.ObjectHidesMaskedValues | src/main/java/com/utility/masking/service/MaskingService.java:53-96 | Two objects with the same simple name and pairwise indistinguishable fields render identically. |
| MaskingServiceProofs.MarkedFieldsIndistinguishable | src/main/java/com/utility/masking/service/MaskingService.java:79-81 | Replacing a marked field's value by one its strategy exposes equally yields an indistinguishable field. So the hidden characters never reach the enclosing object's output. |
| DataMasker.DefaultMask | src/main/java/com/utility/masking/masker/DataMasker.java:20-25 | An empty value is returned unchanged. Otherwise the result has the value's length and consists of the mask character only. |
| DataMasker.DefaultMaskIdempotent | src/main/java/com/utility/masking/masker/DataMasker.java:20-25 | Masking an already masked value changes nothing. |
| MaskStrategy.StrategiesAreClosed | src/main/java/com/utility/strategy/MaskStrategy.java:6-29 | Every strategy is one of exactly four distinct constants: FULL, FIRST_LAST, LAST_FOUR and CUSTOM. |
| MaskingHelper.Mask | src/main/java/com/utility/masking/util/MaskingHelper.java:31-37 | With the service present, the result is the service's masked rendering. Without it, the result is `"null"` for null and the value's plain text otherwise, unmasked. |
| MaskingHelper.FallbackAgreesOnLeaves | src/main/java/com/utility/masking/util/MaskingHelper.java:31-37 | For null, primitives and strings the result is the same with or without the service. |
| MaskingHelper.MaskAll | src/main/java/com/utility/masking/util/MaskingHelper.java:45-51 | Returns one result per argument, as many as given. Result i is `mask(objects[i])`, so order is kept. |
| Examples.StrategyExamples | src/main/java/com/utility/strategy/MaskStrategy.java:7-23 | These are the documented examples: `"password123"` gives `"***********"` under FULL and `"p*********3"` under FIRST_LAST; `"1234567890"` gives `"******7890"` under LAST_FOUR. |
| Examples.UserRendering | src/main/java/com/utility/masking/service/MaskingService.java:53-96 | A `User` prints `User{username=<as is>, password=<FULL>, email=<FIRST_LAST>}`. |
| Examples.UserExample | src/main/java/com/utility/masking/service/MaskingService.java:53-96 | `User("john", "secret123", "john@example.com")` prints `User{username=john, password=*********, email=j**************m}`. |
| Examples.ListRendering | src/main/java/com/utility/masking/service/MaskingService.java:175-191 | A two-item list prints `[a, b]` with each item masked independently. The empty list prints `[]`. |
| Examples.MapOfUserRendering | src/main/java/com/utility/masking/service/MaskingService.java:196-212 | A one-entry map prints `{key=<masked value>}`. The empty map prints `{}`. |
| Examples.NestedRendering | src/main/java/com/utility/masking/service/MaskingService.java:82-85 | An unmarked object-valued field is rendered recursively. |
| Examples.MarkedNestedRendering | src/main/java/com/utility/masking/service/MaskingService.java:79-81 | A marked object-valued field is masked as its `toString()` text and is not descended into. |
| Examples.InheritanceRendering | src/main/java/com/utility/masking/service/MaskingService.java:238-245 | Fields print subclass first, then superclass. A static field of the superclass is skipped. |
| Examples.InaccessibleMiddleRendering | src/main/java/com/utility/masking/service/MaskingService.java:68-91 | An unreadable field prints `inaccessible` with no separator and no `name=`. The next field still gets its `", "`. |
| Examples.InaccessibleFirstRendering | src/main/java/com/utility/masking/service/MaskingService.java:68-91 | When the unreadable field comes first, the next field is still the first printed and gets no `", "`. |
| Examples.CustomExample | src/main/java/com/utility/masking/service/MaskingService.java:161-170 | CUSTOM uses the masker's answer. It falls back to FULL when the masker throws or cannot be instantiated, and gives `"null"` for a null value. |

## Left out

- Reflection (`getDeclaredFields`, `getSuperclass`, `isAnnotationPresent`, `field.get`) is resolved in advance into the `Obj` value. The class chain, each field's modifiers, its marker, and whether it can be read are all inputs.
- `setAccessible(true)` can throw `InaccessibleObjectException` under the module system, and that escapes `maskObject`. Only the caught `IllegalAccessException` is modelled, as `Inaccessible`.
- `toString()` of objects is the parameter `toText`, assumed total. A `toString()` that throws or returns null is not modelled.
- `toText` is a function of a value's contents, and a `Value` has no identity, so two objects with equal contents always get the same text. Identity-based `toString()` results are not modelled. Examples are `Object.toString()`'s `ClassName@hash` and the `toString()` of every array. Those results reach the output through a marked field, a map key and the helper's fallback.
- MaskingService.MaskCustom: `Error`s thrown by a masker are not caught by `catch (Exception e)` and would propagate. Such maskers are not modelled; `Threw` stands for an `Exception`.
- Stack overflow is not modelled. `maskData` recurses through `maskObject`, `maskCollection`, `maskMap` and `maskArray` (lines 36-47 and 85 of `MaskingService.java`), so very deep nesting overflows the Java stack even without a cycle. The model always returns a string.
- Cyclic object graphs are not modelled: a `Value` is a finite tree. The Java code has no cycle guard and would overflow the stack on a cycle; the model adds none.
- Java strings are sequences of UTF-16 code units, and `length()`, `charAt` and `substring` count those units. Dafny's `char` is a Unicode scalar value, so a supplementary character (one outside the Basic Multilingual Plane) is one model character but two Java `char`s. For strings that contain such characters, the lengths and the characters kept by FIRST_LAST and LAST_FOUR differ from Java's. Java can split a surrogate pair where the model cannot. This difference is not modelled.
- Map entry order and collection iteration order are whatever the Java implementation provides. The model takes them as the given sequence order.
- MaskingHelper.MaskAll: a null array is not modelled. `mask(Object...)` throws `NullPointerException` at `objects.length` (MaskingHelper.java:46) when given a null array, and a bare `mask(null)` resolves to this overload because `Object[]` is the more specific parameter type. In the model `objects` is a sequence and cannot be null.
- `MaskingHelper`'s static service reference, set by its constructor during Spring wiring, is the boolean `servicePresent`.
- Spring auto-configuration, `LogbackInitializer`, `MaskingMessageConverter` and the `@Sensitive` annotation declaration itself are outside the core and are not part of this model. The annotation is modelled only as its resolved values (`Annotation.Sensitive`).
- `isPrimitiveOrWrapper` classifies by class. The model classifies by constructor (`Prim` or `Str`), so every wrapper or `Number` subclass is a `Prim` value.

=== FILE: annotation.dfy ===
/** The resolved `@Sensitive` marker of a field. */
module Annotation {
  import opened MaskStrategy
  import opened DataMasker

  /** Strategy, mask character and custom masker class of one marked field. */
  datatype Sensitive = Sensitive(strategy: Strategy, maskChar: char, customMasker: CustomMasker)

  /** The marker's defaults: FULL, `'*'`, and the masker interface itself,
      which has no constructor and so can never be instantiated. */
  const DefaultSensitive: Sensitive := Sensitive(Full, '*', Uninstantiable)
}

=== FILE: data_masker.dfy ===
/** The extension point for user-supplied masking logic, and its default
    full-masking helper. */
module DataMasker {
  import opened Text

  /** What one call of a custom masker's `mask(value, maskChar)` does: it
      returns a string, returns null, or throws. */
  datatype Invocation = Returned(text: string) | ReturnedNull | Threw

  /** The masker class a sensitive field names. `Uninstantiable` stands for a
      class whose no-argument constructor is missing or fails (the default,
      the interface itself, is one); `Instance` carries the behaviour of the
      object the constructor produced. */
  datatype CustomMasker =
    | Uninstantiable
    | Instance(mask: (string, char) -> Invocation)

  /** The interface's default method: every character replaced by `maskChar`,
      an empty value returned as it is. */
  function DefaultMask(value: string, maskChar: char): (r: string)
    ensures |r| == |value|
    ensures AllChar(r, maskChar)
    ensures |value| == 0 ==> r == value
  {
    if |value| == 0 then value else seq(|value|, _ => maskChar)
  }

  /** Masking an already masked value changes nothing. */
  lemma DefaultMaskIdempotent(value: string, maskChar: char)
    ensures DefaultMask(DefaultMask(value, maskChar), maskChar) == DefaultMask(value, maskChar)
  {
    var once := DefaultMask(value, maskChar);
    if |value| > 0 {
      RepeatUnique(once, maskChar);
    }
  }
}

=== FILE: examples.dfy ===
/** Worked inputs and the exact text the engine produces for them. */
module Examples {
  import opened Text
  import opened MaskStrategy
  import opened DataMasker
  import opened Annotation
  import opened Values
  import opened MaskingService
  import opened MaskingServiceProofs

  /** A plain, readable, instance field. */
  function Plain(name: string, v: Value): Field
  {
    Field(name, false, false, None, Readable(v))
  }

  /** A readable field marked sensitive. */
  function Marked(name: string, s: Sensitive, v: Value): Field
  {
    Field(name, false, false, Some(s), Readable(v))
  }

  /** A `User` with a FULL-masked password and a FIRST_LAST-masked email. */
  function User(username: string, password: string, email: string): Value
  {
    Obj("User", [ClassDecl([
      Plain("username", Str(username)),
      Marked("password", DefaultSensitive, Str(password)),
      Marked("email", Sensitive(FirstLast, '*', Uninstantiable), Str(email))])])
  }

  /** The documented example of each built-in strategy. */
  lemma StrategyExamples()
    ensures MaskFull("password123", '*') == "***********"
    ensures MaskFirstLast("password123", '*') == "p*********3"
    ensures MaskLastFour("1234567890", '*') == "******7890"
  {
  }

  /** A `User` prints its username as it is, its password FULL-masked and
      its email FIRST_LAST-masked, in the order its fields are listed. */
  lemma UserRendering(username: string, password: string, email: string, toText: Value -> string)
    ensures MaskData(User(username, password, email), toText)
      == "User{" + "username=" + username + ", password=" + MaskFull(password, '*')
         + ", email=" + MaskFirstLast(email, '*') + "}"
  {
    var u := User(username, password, email);
    var full, firstLast := MaskFull(password, '*'), MaskFirstLast(email, '*');
    var loop := MaskFields(AllFields(u.classes), true, u, toText);
    UserFieldLoop(username, password, email, toText);
    assert MaskData(u, toText) == "User{" + loop + "}";
    Enclose6("User{", loop, "}", "username=", username, ", password=", full, ", email=", firstLast);
  }

  /** The field loop of a `User`, from its first field. */
  lemma UserFieldLoop(username: string, password: string, email: string, toText: Value -> string)
    ensures FieldsBelow(AllFields(User(username, password, email).classes), User(username, password, email))
    ensures MaskFields(AllFields(User(username, password, email).classes), true,
                       User(username, password, email), toText)
      == "username=" + username + ", password=" + MaskFull(password, '*')
         + ", email=" + MaskFirstLast(email, '*')
  {
    var u := User(username, password, email);
    var fields := AllFields(u.classes);
    var tail := MaskFields(fields[1..], false, u, toText);
    UserFieldTail(username, password, email, toText);
    MaskFieldsStep(fields, true, u, toText);
    assert FieldText(None, Str(username), toText) == username;
    assert "" + "username" + "=" == "username=";
    assert MaskFields(fields, true, u, toText) == "username=" + username + tail;
    Flatten4("username=" + username, tail, ", password=", MaskFull(password, '*'),
             ", email=", MaskFirstLast(email, '*'));
  }

  /** The field loop of a `User`, from its second field. */
  lemma UserFieldTail(username: string, password: string, email: string, toText: Value -> string)
    ensures AllFields(User(username, password, email).classes)
      == User(username, password, email).classes[0].declaredFields
    ensures FieldsBelow(AllFields(User(username, password, email).classes), User(username, password, email))
    ensures MaskFields(AllFields(User(username, password, email).classes)[1..], false,
                       User(username, password, email), toText)
      == ", password=" + MaskFull(password, '*') + ", email=" + MaskFirstLast(email, '*')
  {
    var u := User(username, password, email);
    var fields := u.classes[0].declaredFields;
    assert AllFields(u.classes) == fields;
    AllFieldsBelow(u);
    var t3 := LaterField(fields[2..], u, ", email=", MaskFirstLast(email, '*'), toText);
    assert fields[2..][1..] == [];
    assert t3 == ", email=" + MaskFirstLast(email, '*');
    var t2 := LaterField(fields[1..], u, ", password=", MaskFull(password, '*'), toText);
    assert fields[1..][1..] == fields[2..];
    Flatten2(", password=" + MaskFull(password, '*'), t3, ", email=", MaskFirstLast(email, '*'));
  }

  /** One turn of the field loop for a readable field that is not the first
      printed: `", "`, its name, `=`, its text. */
  lemma LaterField(fields: seq<Field>, parent: Value, prefix: string, text: string, toText: Value -> string)
    returns (t: string)
    requires FieldsBelow(fields, parent) && |fields| > 0
    requires !fields[0].isStatic && !fields[0].isSynthetic && fields[0].content.Readable?
    requires prefix == ", " + fields[0].name + "="
    requires text == FieldText(fields[0].sensitive, fields[0].content.value, toText)
    ensures t == MaskFields(fields, false, parent, toText)
    ensures t == prefix + text + MaskFields(fields[1..], false, parent, toText)
  {
    MaskFieldsStep(fields, false, parent, toText);
    t := MaskFields(fields, false, parent, toText);
  }

  const JohnMasked: string :=
    "User{" + "username=" + "john" + ", password=" + "*********" + ", email=" + "j**************m" + "}"

  /** The end-to-end example: plain fields print as they are; marked fields
      are masked per strategy. */
  lemma UserExample(toText: Value -> string)
    ensures MaskData(User("john", "secret123", "john@example.com"), toText) == JohnMasked
  {
    UserRendering("john", "secret123", "john@example.com", toText);
    assert MaskFull("secret123", '*') == "*********";
    assert MaskFirstLast("john@example.com", '*') == "j**************m";
  }

  /** Each element of a list is masked independently. */
  lemma ListRendering(a: Value, b: Value, toText: Value -> string)
    ensures MaskData(Coll([a, b]), toText) == "[" + MaskData(a, toText) + ", " + MaskData(b, toText) + "]"
    ensures MaskData(Coll([]), toText) == "[]"
  {
    CollectionRendering([a, b], toText);
    CollectionRendering([], toText);
    var parts := RenderAll([a, b], toText);
    assert parts[1..] == [MaskData(b, toText)];
  }

  /** Keys print as text and values are masked; an empty map is `{}`. */
  lemma MapOfUserRendering(key: string, user: Value, toText: Value -> string)
    ensures MaskData(Map([Entry(Str(key), user)]), toText) == "{" + key + "=" + MaskData(user, toText) + "}"
    ensures MaskData(Map([]), toText) == "{}"
  {
    MapRendering([Entry(Str(key), user)], toText);
    MapRendering([], toText);
  }

  /** An unmarked object-valued field is rendered recursively. */
  lemma NestedRendering(buyer: Value, toText: Value -> string)
    requires buyer.Obj?
    ensures MaskData(Obj("Order", [ClassDecl([Plain("buyer", buyer)])]), toText)
      == "Order{" + "buyer=" + MaskData(buyer, toText) + "}"
  {
    var order := Obj("Order", [ClassDecl([Plain("buyer", buyer)])]);
    var fields := order.classes[0].declaredFields;
    assert AllFields(order.classes) == fields;
    AllFieldsBelow(order);
    MaskFieldsStep(fields, true, order, toText);
    assert fields[1..] == [];
  }

  /** A marked object-valued field is masked as its `toString()` text and is
      not descended into. */
  lemma MarkedNestedRendering(buyer: Value, toText: Value -> string)
    requires buyer.Obj?
    ensures MaskData(Obj("Order", [ClassDecl([Marked("buyer", DefaultSensitive, buyer)])]), toText)
      == "Order{" + "buyer=" + MaskFull(toText(buyer), '*') + "}"
  {
    var order := Obj("Order", [ClassDecl([Marked("buyer", DefaultSensitive, buyer)])]);
    var fields := order.classes[0].declaredFields;
    assert AllFields(order.classes) == fields;
    AllFieldsBelow(order);
    MaskFieldsStep(fields, true, order, toText);
    assert fields[1..] == [];
  }

  /** A class `Admin` declaring `level`, whose superclass declares a static
      `COUNT` and `username`: the subclass's fields print before the
      superclass's, and statics are skipped. */
  function Admin(level: string, count: string, username: string): Value
  {
    Obj("Admin", [
      ClassDecl([Plain("level", Prim(level))]),
      ClassDecl([Field("COUNT", true, false, None, Readable(Prim(count))), Plain("username", Str(username))])])
  }

  lemma InheritanceRendering(level: string, count: string, username: string, toText: Value -> string)
    ensures MaskData(Admin(level, count, username), toText)
      == "Admin{" + "level=" + level + ", username=" + username + "}"
  {
    AllFieldsBelow(Admin(level, count, username));
    var loop := MaskFields(AllFields(Admin(level, count, username).classes), true,
                           Admin(level, count, username), toText);
    AdminFieldLoop(level, count, username, toText);
    assert MaskData(Admin(level, count, username), toText) == "Admin{" + loop + "}";
    Enclose4("Admin{", loop, "}", "level=", level, ", username=", username);
  }

  lemma AdminFieldLoop(level: string, count: string, username: string, toText: Value -> string)
    ensures FieldsBelow(AllFields(Admin(level, count, username).classes), Admin(level, count, username))
    ensures MaskFields(AllFields(Admin(level, count, username).classes), true,
                       Admin(level, count, username), toText)
      == "level=" + level + ", username=" + username
  {
    var a := Admin(level, count, username);
    var fields := a.classes[0].declaredFields + a.classes[1].declaredFields;
    assert AllFields(a.classes[1..]) == a.classes[1].declaredFields;
    assert AllFields(a.classes) == fields;
    AllFieldsBelow(a);
    MaskFieldsStep(fields, true, a, toText);
    MaskFieldsStep(fields[1..], false, a, toText);
    assert fields[1..][1..] == fields[2..];
    var t := LaterField(fields[2..], a, ", username=", username, toText);
    assert fields[2..][1..] == [];
    assert FieldText(None, Prim(level), toText) == level;
    assert "" + "level" + "=" == "level=";
    Flatten2("level=" + level, t, ", username=", username);
  }

  /** An `Account` whose middle field `secret` cannot be read. */
  function Account(id: string, owner: string): Value
  {
    Obj("Account", [ClassDecl([
      Plain("id", Prim(id)),
      Field("secret", false, false, None, Inaccessible),
      Plain("owner", Str(owner))])])
  }

  /** An `Account` whose first field `secret` cannot be read. */
  function SecretFirst(owner: string): Value
  {
    Obj("Account", [ClassDecl([
      Field("secret", false, false, None, Inaccessible),
      Plain("owner", Str(owner))])])
  }

  /** A field that cannot be read prints `inaccessible` with no separator and
      no `name=`; the field after it still gets its `", "`. */
  lemma InaccessibleMiddleRendering(id: string, owner: string, toText: Value -> string)
    ensures MaskData(Account(id, owner), toText)
      == "Account{" + "id=" + id + "inaccessible" + ", owner=" + owner + "}"
  {
    AllFieldsBelow(Account(id, owner));
    var loop := MaskFields(AllFields(Account(id, owner).classes), true, Account(id, owner), toText);
    AccountFieldLoop(id, owner, toText);
    assert MaskData(Account(id, owner), toText) == "Account{" + loop + "}";
    Enclose5("Account{", loop, "}", "id=", id, "inaccessible", ", owner=", owner);
  }

  /** When the unreadable field comes first, the next field is still the
      first printed and gets no `", "`. */
  lemma InaccessibleFirstRendering(owner: string, toText: Value -> string)
    ensures MaskData(SecretFirst(owner), toText) == "Account{" + "inaccessible" + "owner=" + owner + "}"
  {
    AllFieldsBelow(SecretFirst(owner));
    var loop := MaskFields(AllFields(SecretFirst(owner).classes), true, SecretFirst(owner), toText);
    SecretFirstFieldLoop(owner, toText);
    assert MaskData(SecretFirst(owner), toText) == "Account{" + loop + "}";
    Enclose3("Account{", loop, "}", "inaccessible", "owner=", owner);
  }

  lemma AccountFieldLoop(id: string, owner: string, toText: Value -> string)
    ensures FieldsBelow(AllFields(Account(id, owner).classes), Account(id, owner))
    ensures MaskFields(AllFields(Account(id, owner).classes), true, Account(id, owner), toText)
      == "id=" + id + "inaccessible" + ", owner=" + owner
  {
    var a := Account(id, owner);
    var fields := a.classes[0].declaredFields;
    assert AllFields(a.classes) == fields;
    AllFieldsBelow(a);
    MaskFieldsStep(fields, true, a, toText);
    MaskFieldsStep(fields[1..], false, a, toText);
    assert fields[1..][1..] == fields[2..];
    var t := LaterField(fields[2..], a, ", owner=", owner, toText);
    assert fields[2..][1..] == [];
    assert FieldText(None, Prim(id), toText) == id;
    assert "" + "id" + "=" == "id=";
    Flatten2("inaccessible", t, ", owner=", owner);
    Flatten4("id=" + id, "inaccessible" + t, "inaccessible", ", owner=", owner, "");
  }

  lemma SecretFirstFieldLoop(owner: string, toText: Value -> string)
    ensures FieldsBelow(AllFields(SecretFirst(owner).classes), SecretFirst(owner))
    ensures MaskFields(AllFields(SecretFirst(owner).classes), true, SecretFirst(owner), toText)
      == "inaccessible" + "owner=" + owner
  {
    var a := SecretFirst(owner);
    var fields := a.classes[0].declaredFields;
    assert AllFields(a.classes) == fields;
    AllFieldsBelow(a);
    MaskFieldsStep(fields, true, a, toText);
    MaskFieldsStep(fields[1..], true, a, toText);
    assert fields[1..][1..] == [];
    assert FieldText(None, Str(owner), toText) == owner;
    assert "" + "owner" + "=" == "owner=";
  }

  /** CUSTOM uses the masker's answer, and falls back to FULL when the masker
      class cannot be constructed or its `mask` throws. */
  lemma CustomExample(toText: Value -> string)
    ensures MaskValue(Str("4111"), Sensitive(Custom, '#', Instance((v, c) => Returned("<hidden>"))), toText)
      == "<hidden>"
    ensures MaskValue(Str("4111"), Sensitive(Custom, '#', Instance((v, c) => Threw)), toText) == "####"
    ensures MaskValue(Str("4111"), Sensitive(Custom, '#', Uninstantiable), toText) == "####"
    ensures MaskValue(Null, Sensitive(Custom, '#', Uninstantiable), toText) == "null"
  {
  }
}

=== FILE: mask_strategy.dfy ===
/** The closed set of masking strategies a sensitive field can select. */
module MaskStrategy {

  /** FULL masks every character, FIRST_LAST keeps the two ends, LAST_FOUR
      keeps the final four characters, CUSTOM delegates to a user masker. */
  datatype Strategy = Full | FirstLast | LastFour | Custom

  /** Every strategy, in declaration order. */
  const AllStrategies: seq<Strategy> := [Full, FirstLast, LastFour, Custom]

  /** The enumeration has exactly the four declared constants. */
  lemma StrategiesAreClosed(s: Strategy)
    ensures s in AllStrategies
    ensures |AllStrategies| == 4
    ensures forall i, j :: 0 <= i < j < |AllStrategies| ==> AllStrategies[i] != AllStrategies[j]
  {
  }
}

=== FILE: masking_helper.dfy ===
/** The static entry points callers use in log statements. Whether the
    masking service has been wired in yet is the parameter `servicePresent`. */
module MaskingHelper {
  import opened Values
  import opened MaskingService

  /** One value: the service's masked rendering when the service is present;
      before that, the value's plain `String.valueOf` text, unmasked. */
  function Mask(obj: Value, servicePresent: bool, toText: Value -> string): (r: string)
    ensures servicePresent ==> r == MaskData(obj, toText)
    ensures !servicePresent && obj.Null? ==> r == "null"
    ensures !servicePresent && !obj.Null? ==> r == Stringify(obj, toText)
  {
    if !servicePresent then (if obj.Null? then "null" else Stringify(obj, toText))
    else MaskData(obj, toText)
  }

  /** Null, primitives and strings come out the same with or without the
      service: only composite values are affected by masking. */
  lemma FallbackAgreesOnLeaves(obj: Value, toText: Value -> string)
    requires obj.Null? || IsPrimitiveOrWrapper(obj)
    ensures Mask(obj, false, toText) == Mask(obj, true, toText)
  {
  }

  /** Several values at once: one result per argument, in argument order. */
  method MaskAll(objects: seq<Value>, servicePresent: bool, toText: Value -> string)
    returns (masked: seq<string>)
    ensures |masked| == |objects|
    ensures forall i :: 0 <= i < |objects| ==> masked[i] == Mask(objects[i], servicePresent, toText)
  {
    masked := [];
    var i := 0;
    while i < |objects|
      invariant 0 <= i <= |objects|
      invariant |masked| == i
      invariant forall j :: 0 <= j < i ==> masked[j] == Mask(objects[j], servicePresent, toText)
    {
      masked := masked + [Mask(objects[i], servicePresent, toText)];
      i := i + 1;
    }
  }
}

=== FILE: masking_service.dfy ===
/** The recursive masking engine: renders any value as text, masking the
    fields marked sensitive. Every function here is total; `toText` stands for
    `toString()` of the values whose text the engine does not compute itself. */
module MaskingService {
  import opened Text
  import opened MaskStrategy
  import opened DataMasker
  import opened Annotation
  import opened Values

  // ---------------------------------------------------------------------
  // Strategies
  // ---------------------------------------------------------------------

  /** FULL: every character becomes `maskChar`; an empty value is returned. */
  function MaskFull(value: string, maskChar: char): (r: string)
    ensures |r| == |value|
    ensures AllChar(r, maskChar)
    ensures |value| == 0 ==> r == value
  {
    if |value| == 0 then value else Repeat(maskChar, |value|)
  }

  /** FULL masking and the masker interface's default method agree on every
      input: a custom masker that falls back on its default behaves like FULL. */
  lemma DefaultMaskIsMaskFull(value: string, maskChar: char)
    ensures DefaultMask(value, maskChar) == MaskFull(value, maskChar)
  {
    if |value| > 0 {
      RepeatUnique(DefaultMask(value, maskChar), maskChar);
      RepeatUnique(MaskFull(value, maskChar), maskChar);
    }
  }

  /** FIRST_LAST: values of at most two characters are returned as they are;
      longer ones keep their first and last character and mask the rest. */
  function MaskFirstLast(value: string, maskChar: char): (r: string)
    ensures |r| == |value|
    ensures |value| <= 2 ==> r == value
    ensures |value| > 2 ==>
      && r[0] == value[0]
      && r[|r| - 1] == value[|value| - 1]
      && forall i :: 0 < i < |r| - 1 ==> r[i] == maskChar
  {
    if |value| == 0 then value
    else if |value| <= 2 then value
    else [value[0]] + Repeat(maskChar, |value| - 2) + [value[|value| - 1]]
  }

  /** LAST_FOUR: values of at most four characters are returned as they are;
      longer ones keep their last four characters and mask the rest. */
  function MaskLastFour(value: string, maskChar: char): (r: string)
    ensures |r| == |value|
    ensures |value| <= 4 ==> r == value
    ensures |value| > 4 ==>
      && r[|r| - 4..] == value[|value| - 4..]
      && forall i :: 0 <= i < |r| - 4 ==> r[i] == maskChar
  {
    if |value| == 0 then value
    else if |value| <= 4 then value
    else Repeat(maskChar, |value| - 4) + value[|value| - 4..]
  }

  /** CUSTOM: the masker's answer, or FULL masking when the masker cannot be
      constructed or throws. A masker that returns null contributes the text
      `"null"`, which is what appending a null string produces. */
  function MaskCustom(value: string, sensitive: Sensitive): (r: string)
    ensures sensitive.customMasker.Uninstantiable? ==> r == MaskFull(value, sensitive.maskChar)
    ensures sensitive.customMasker.Instance? ==>
      match sensitive.customMasker.mask(value, sensitive.maskChar)
      case Returned(t) => r == t
      case ReturnedNull => r == "null"
      case Threw => r == MaskFull(value, sensitive.maskChar)
  {
    match sensitive.customMasker
    case Uninstantiable => MaskFull(value, sensitive.maskChar)
    case Instance(mask) =>
      match mask(value, sensitive.maskChar)
      case Returned(t) => t
      case ReturnedNull => "null"
      case Threw => MaskFull(value, sensitive.maskChar)
  }

  /** A custom masker whose `mask` is the interface's default method masks
      exactly as FULL does. */
  lemma CustomDefaultMaskerIsFull(value: string, maskChar: char)
    ensures MaskCustom(value, Sensitive(Custom, maskChar, Instance((v, c) => Returned(DefaultMask(v, c)))))
      == MaskFull(value, maskChar)
  {
    DefaultMaskIsMaskFull(value, maskChar);
  }

  /** The value of a sensitive field: `"null"` for null, and otherwise the
      field's strategy applied to the value's `toString()` text. */
  function MaskValue(value: Value, sensitive: Sensitive, toText: Value -> string): (r: string)
    ensures value.Null? ==> r == "null"
    ensures !value.Null? && sensitive.strategy != Custom ==> |r| == |Stringify(value, toText)|
    ensures !value.Null? && sensitive.strategy == Full ==> AllChar(r, sensitive.maskChar)
    ensures !value.Null? && sensitive.strategy == Full ==>
      r == MaskFull(Stringify(value, toText), sensitive.maskChar)
    ensures !value.Null? && sensitive.strategy == FirstLast ==>
      r == MaskFirstLast(Stringify(value, toText), sensitive.maskChar)
    ensures !value.Null? && sensitive.strategy == LastFour ==>
      r == MaskLastFour(Stringify(value, toText), sensitive.maskChar)
    ensures !value.Null? && sensitive.strategy == Custom ==>
      r == MaskCustom(Stringify(value, toText), sensitive)
  {
    if value.Null? then "null"
    else
      var text := Stringify(value, toText);
      match sensitive.strategy
      case Full => MaskFull(text, sensitive.maskChar)
      case FirstLast => MaskFirstLast(text, sensitive.maskChar)
      case LastFour => MaskLastFour(text, sensitive.maskChar)
      case Custom => MaskCustom(text, sensitive)
  }

  // ---------------------------------------------------------------------
  // Field discovery
  // ---------------------------------------------------------------------

  /** Number of fields declared by the first `k` classes of the chain. */
  function FieldsBefore(classes: seq<ClassDecl>, k: nat): nat
    requires k <= |classes|
  {
    if k == 0 then 0 else FieldsBefore(classes, k - 1) + |classes[k - 1].declaredFields|
  }

  /** All fields of an object: the runtime class's declared fields, then each
      superclass's, in chain order (see `AllFieldsOrder`). */
  function AllFields(classes: seq<ClassDecl>): (r: seq<Field>)
    ensures |r| == FieldsBefore(classes, |classes|)
  {
    if |classes| == 0 then []
    else
      FieldsBeforeShiftAt(classes, |classes|);
      classes[0].declaredFields + AllFields(classes[1..])
  }

  /** The fields of class `k` of the chain occupy one contiguous block, right
      after the fields of the classes before it: subclass fields come first,
      superclass fields later, each class's fields in the order
      `getDeclaredFields` returns them. */
  lemma {:induction false} AllFieldsOrder(classes: seq<ClassDecl>, k: nat)
    requires k < |classes|
    ensures FieldsBefore(classes, k + 1) <= |AllFields(classes)|
    ensures AllFields(classes)[FieldsBefore(classes, k)..FieldsBefore(classes, k + 1)]
      == classes[k].declaredFields
  {
    var first, rest := classes[0].declaredFields, classes[1..];
    assert AllFields(classes) == first + AllFields(rest);
    FieldsBeforeMonotone(classes, k + 1, |classes|);
    if k == 0 {
      SliceOfAppend(first, AllFields(rest), 0, 0);
    } else {
      AllFieldsOrder(rest, k - 1);
      FieldsBeforeShiftAt(classes, k);
      FieldsBeforeShiftAt(classes, k + 1);
      assert classes[k] == rest[k - 1];
      SliceOfAppend(first, AllFields(rest), FieldsBefore(rest, k - 1), FieldsBefore(rest, k));
    }
  }

  lemma {:induction false} FieldsBeforeMonotone(classes: seq<ClassDecl>, a: nat, b: nat)
    requires a <= b <= |classes|
    ensures FieldsBefore(classes, a) <= FieldsBefore(classes, b)
  {
    if a < b {
      FieldsBeforeMonotone(classes, a, b - 1);
    }
  }

  /** Dropping the first class shifts every later offset by its field count. */
  lemma {:induction false} FieldsBeforeShiftAt(classes: seq<ClassDecl>, k: nat)
    requires 1 <= k <= |classes|
    ensures FieldsBefore(classes, k) == |classes[0].declaredFields| + FieldsBefore(classes[1..], k - 1)
  {
    if k > 1 {
      FieldsBeforeShiftAt(classes, k - 1);
    }
  }

  // ---------------------------------------------------------------------
  // Rendering
  // ---------------------------------------------------------------------

  /** True iff every readable field's value is structurally below `parent`. */
  ghost predicate FieldsBelow(fields: seq<Field>, parent: Value)
  {
    forall i :: 0 <= i < |fields| && fields[i].content.Readable? ==> fields[i].content.value < parent
  }

  /** The masked rendering of any value. */
  function MaskData(v: Value, toText: Value -> string): string
    decreases v, 2, 0
  {
    match v
    case Null => "null"
    case Prim(t) => t
    case Str(s) => s
    case Coll(items) => MaskCollection(items, v, toText)
    case Map(entries) => MaskMap(entries, v, toText)
    case Arr(elems) => MaskArray(elems, v, toText)
    case Obj(name, classes) =>
      AllFieldsBelow(v);
      MaskObject(name, classes, v, toText)
  }

  lemma AllFieldsBelow(v: Value)
    requires v.Obj?
    ensures FieldsBelow(AllFields(v.classes), v)
  {
    var fields := AllFields(v.classes);
    forall i | 0 <= i < |fields| && fields[i].content.Readable?
      ensures fields[i].content.value < v
    {
      var k, j := FieldOrigin(v.classes, i);
      var c := v.classes[k];
      assert c.declaredFields[j] == fields[i];
      assert c < v;
    }
  }

  /** Every flattened field comes from some class of the chain. */
  lemma {:induction false} FieldOrigin(classes: seq<ClassDecl>, i: nat) returns (k: nat, j: nat)
    requires i < |AllFields(classes)|
    ensures k < |classes| && j < |classes[k].declaredFields|
    ensures AllFields(classes)[i] == classes[k].declaredFields[j]
  {
    if i < |classes[0].declaredFields| {
      k, j := 0, i;
    } else {
      var k', j' := FieldOrigin(classes[1..], i - |classes[0].declaredFields|);
      k, j := k' + 1, j';
    }
  }

  /** An object: its simple class name, then its fields between braces. */
  function MaskObject(name: string, classes: seq<ClassDecl>, ghost parent: Value,
                      toText: Value -> string): string
    requires FieldsBelow(AllFields(classes), parent)
    decreases parent, 1, 0
  {
    name + "{" + MaskFields(AllFields(classes), true, parent, toText) + "}"
  }

  /** The field loop of an object. Static and synthetic fields are skipped.
      A readable field appends a separator (unless it is the first one),
      `name=` and its value. A field that cannot be read appends only
      `"inaccessible"` and leaves `first` as it was. */
  function MaskFields(fields: seq<Field>, first: bool, ghost parent: Value,
                      toText: Value -> string): string
    requires FieldsBelow(fields, parent)
    decreases parent, 0, |fields|
  {
    if |fields| == 0 then ""
    else
      var f := fields[0];
      if f.isStatic || f.isSynthetic then MaskFields(fields[1..], first, parent, toText)
      else
        match f.content
        case Inaccessible => "inaccessible" + MaskFields(fields[1..], first, parent, toText)
        case Readable(value) =>
          (if first then "" else ", ") + f.name + "=" + FieldText(f.sensitive, value, toText)
          + MaskFields(fields[1..], false, parent, toText)
  }

  /** The text after `name=` for a readable field: a marked field is masked
      as text and never descended into; an unmarked composite is rendered
      recursively; anything else is printed as it is. */
  function FieldText(sensitive: Option<Sensitive>, value: Value, toText: Value -> string): string
    decreases value, 3, 0
  {
    match sensitive
    case Some(s) => MaskValue(value, s, toText)
    case None =>
      if !value.Null? && !IsPrimitiveOrWrapper(value) && !value.Str? then MaskData(value, toText)
      else Stringify(value, toText)
  }

  /** A collection: `[]` when empty, else its items between brackets. */
  function MaskCollection(items: seq<Value>, ghost parent: Value, toText: Value -> string): string
    requires forall i :: 0 <= i < |items| ==> items[i] < parent
    decreases parent, 1, 0
  {
    if |items| == 0 then "[]" else "[" + MaskItems(items, true, parent, toText) + "]"
  }

  /** The iteration loop of a collection, with its `first` flag. */
  function MaskItems(items: seq<Value>, first: bool, ghost parent: Value,
                     toText: Value -> string): string
    requires forall i :: 0 <= i < |items| ==> items[i] < parent
    decreases parent, 0, |items|
  {
    if |items| == 0 then ""
    else (if first then "" else ", ") + MaskData(items[0], toText)
         + MaskItems(items[1..], false, parent, toText)
  }

  /** A map: `{}` when empty, else `key=value` entries between braces. */
  function MaskMap(entries: seq<Entry>, ghost parent: Value, toText: Value -> string): string
    requires forall i :: 0 <= i < |entries| ==> entries[i].value < parent
    decreases parent, 1, 0
  {
    if |entries| == 0 then "{}" else "{" + MaskEntries(entries, true, parent, toText) + "}"
  }

  /** The entry loop of a map; a key is printed as its plain text. */
  function MaskEntries(entries: seq<Entry>, first: bool, ghost parent: Value,
                       toText: Value -> string): string
    requires forall i :: 0 <= i < |entries| ==> entries[i].value < parent
    decreases parent, 0, |entries|
  {
    if |entries| == 0 then ""
    else (if first then "" else ", ") + Stringify(entries[0].key, toText) + "="
         + MaskData(entries[0].value, toText)
         + MaskEntries(entries[1..], false, parent, toText)
  }

  /** An array: `[]` when empty, else its elements between brackets. */
  function MaskArray(elems: seq<Value>, ghost parent: Value, toText: Value -> string): string
    requires forall i :: 0 <= i < |elems| ==> elems[i] < parent
    decreases parent, 1, 0
  {
    if |elems| == 0 then "[]" else "[" + MaskElems(elems, 0, parent, toText) + "]"
  }

  /** The index loop of an array, from index `i` on. */
  function MaskElems(elems: seq<Value>, i: nat, ghost parent: Value,
                     toText: Value -> string): string
    requires i <= |elems|
    requires forall j :: 0 <= j < |elems| ==> elems[j] < parent
    decreases parent, 0, |elems| - i
  {
    if i == |elems| then ""
    else (if i > 0 then ", " else "") + MaskData(elems[i], toText)
         + MaskElems(elems, i + 1, parent, toText)
  }
}

=== FILE: masking_service_proofs.dfy ===
/** What the masking engine's output looks like, stated against reference
    definitions that build the expected text directly with `Join`. */
module MaskingServiceProofs {
  import opened Text
  import opened MaskStrategy
  import opened Annotation
  import opened Values
  import opened MaskingService

  // ---------------------------------------------------------------------
  // Reference renderings
  // ---------------------------------------------------------------------

  /** Each item rendered on its own, in order. */
  ghost function RenderAll(items: seq<Value>, toText: Value -> string): (r: seq<string>)
    ensures |r| == |items|
  {
    seq(|items|, i requires 0 <= i < |items| => MaskData(items[i], toText))
  }

  /** Each map entry as `key=value`, in order. */
  ghost function RenderEntries(entries: seq<Entry>, toText: Value -> string): (r: seq<string>)
    ensures |r| == |entries|
  {
    seq(|entries|, i requires 0 <= i < |entries| =>
      Stringify(entries[i].key, toText) + "=" + MaskData(entries[i].value, toText))
  }

  /** True iff every field can be read. */
  ghost predicate AllReadable(fields: seq<Field>)
  {
    forall i :: 0 <= i < |fields| ==> fields[i].content.Readable?
  }

  /** True iff no field is static or synthetic. */
  ghost predicate NoneSkipped(fields: seq<Field>)
  {
    forall i :: 0 <= i < |fields| ==> !fields[i].isStatic && !fields[i].isSynthetic
  }

  /** Each readable field as `name=text`, in order. */
  ghost function RenderFields(fields: seq<Field>, toText: Value -> string): (r: seq<string>)
    requires AllReadable(fields)
    ensures |r| == |fields|
  {
    seq(|fields|, i requires 0 <= i < |fields| =>
      fields[i].name + "=" + FieldText(fields[i].sensitive, fields[i].content.value, toText))
  }

  /** The fields that the renderer does not skip, in their original order. */
  ghost function Kept(fields: seq<Field>): (r: seq<Field>)
    ensures |r| <= |fields|
    ensures NoneSkipped(r)
  {
    if |fields| == 0 then []
    else if fields[0].isStatic || fields[0].isSynthetic then Kept(fields[1..])
    else [fields[0]] + Kept(fields[1..])
  }

  // ---------------------------------------------------------------------
  // Leaves
  // ---------------------------------------------------------------------

  /** Null, primitives, wrappers and strings reached directly are printed as
      their own text, never masked. */
  lemma LeafRendersAsText(v: Value, toText: Value -> string)
    requires v.Null? || IsPrimitiveOrWrapper(v)
    ensures MaskData(v, toText) == Stringify(v, toText)
    ensures v.Null? ==> MaskData(v, toText) == "null"
  {
  }

  // ---------------------------------------------------------------------
  // Collections and arrays
  // ---------------------------------------------------------------------

  lemma {:induction false} MaskItemsJoin(items: seq<Value>, parent: Value, toText: Value -> string)
    requires forall i :: 0 <= i < |items| ==> items[i] < parent
    ensures MaskItems(items, true, parent, toText) == Join(", ", RenderAll(items, toText))
    ensures |items| > 0 ==>
      MaskItems(items, false, parent, toText) == ", " + Join(", ", RenderAll(items, toText))
  {
    if |items| > 0 {
      var parts, rest := RenderAll(items, toText), items[1..];
      MaskItemsJoin(rest, parent, toText);
      RenderAllTail(items, toText);
      MaskItemsUnfold(items, parent, toText);
      JoinStep(", ", parts, MaskItems(rest, false, parent, toText));
    }
  }

  lemma RenderAllTail(items: seq<Value>, toText: Value -> string)
    requires |items| > 0
    ensures RenderAll(items[1..], toText) == RenderAll(items, toText)[1..]
    ensures RenderAll(items, toText)[0] == MaskData(items[0], toText)
  {
  }

  lemma MaskItemsUnfold(items: seq<Value>, parent: Value, toText: Value -> string)
    requires forall i :: 0 <= i < |items| ==> items[i] < parent
    requires |items| > 0
    ensures forall i :: 0 <= i < |items[1..]| ==> items[1..][i] < parent
    ensures MaskItems(items, true, parent, toText)
      == MaskData(items[0], toText) + MaskItems(items[1..], false, parent, toText)
    ensures MaskItems(items, false, parent, toText)
      == ", " + MaskData(items[0], toText) + MaskItems(items[1..], false, parent, toText)
  {
  }

  /** A collection renders as `[]` when empty and otherwise as its items'
      renderings joined by `", "` between brackets, in iteration order. */
  lemma CollectionRendering(items: seq<Value>, toText: Value -> string)
    ensures MaskData(Coll(items), toText) == "[" + Join(", ", RenderAll(items, toText)) + "]"
    ensures |items| == 0 ==> MaskData(Coll(items), toText) == "[]"
  {
    MaskItemsJoin(items, Coll(items), toText);
  }

  lemma {:induction false} MaskElemsJoin(elems: seq<Value>, i: nat, parent: Value, toText: Value -> string)
    requires i <= |elems|
    requires forall j :: 0 <= j < |elems| ==> elems[j] < parent
    ensures MaskElems(elems, i, parent, toText)
      == (if 0 < i < |elems| then ", " else "") + Join(", ", RenderAll(elems[i..], toText))
    decreases |elems| - i
  {
    if i < |elems| {
      var parts := RenderAll(elems[i..], toText);
      MaskElemsJoin(elems, i + 1, parent, toText);
      RenderAllTail(elems[i..], toText);
      assert elems[i..][1..] == elems[i + 1..];
      MaskElemsUnfold(elems, i, parent, toText);
      JoinStep(", ", parts, MaskElems(elems, i + 1, parent, toText));
    }
  }

  lemma MaskElemsUnfold(elems: seq<Value>, i: nat, parent: Value, toText: Value -> string)
    requires i < |elems|
    requires forall j :: 0 <= j < |elems| ==> elems[j] < parent
    ensures MaskElems(elems, i, parent, toText)
      == (if i > 0 then ", " else "") + MaskData(elems[i], toText) + MaskElems(elems, i + 1, parent, toText)
  {
  }

  /** An array renders as `[]` when empty and otherwise as its elements'
      renderings joined by `", "` between brackets, in index order. */
  lemma ArrayRendering(elems: seq<Value>, toText: Value -> string)
    ensures MaskData(Arr(elems), toText) == "[" + Join(", ", RenderAll(elems, toText)) + "]"
    ensures |elems| == 0 ==> MaskData(Arr(elems), toText) == "[]"
  {
    MaskElemsJoin(elems, 0, Arr(elems), toText);
    assert elems[0..] == elems;
  }

  /** The index loop over an array and the iterator loop over a collection
      print the same sequence identically. */
  lemma ArrayRendersLikeCollection(items: seq<Value>, toText: Value -> string)
    ensures MaskData(Arr(items), toText) == MaskData(Coll(items), toText)
  {
    ArrayRendering(items, toText);
    CollectionRendering(items, toText);
  }

  // ---------------------------------------------------------------------
  // Maps
  // ---------------------------------------------------------------------

  lemma {:induction false} MaskEntriesJoin(entries: seq<Entry>, parent: Value, toText: Value -> string)
    requires forall i :: 0 <= i < |entries| ==> entries[i].value < parent
    ensures MaskEntries(entries, true, parent, toText) == Join(", ", RenderEntries(entries, toText))
    ensures |entries| > 0 ==>
      MaskEntries(entries, false, parent, toText) == ", " + Join(", ", RenderEntries(entries, toText))
  {
    if |entries| > 0 {
      var parts, rest := RenderEntries(entries, toText), entries[1..];
      MaskEntriesJoin(rest, parent, toText);
      RenderEntriesTail(entries, toText);
      MaskEntriesUnfold(entries, parent, toText);
      JoinStep(", ", parts, MaskEntries(rest, false, parent, toText));
    }
  }

  lemma RenderEntriesTail(entries: seq<Entry>, toText: Value -> string)
    requires |entries| > 0
    ensures RenderEntries(entries[1..], toText) == RenderEntries(entries, toText)[1..]
  {
  }

  lemma MaskEntriesUnfold(entries: seq<Entry>, parent: Value, toText: Value -> string)
    requires forall i :: 0 <= i < |entries| ==> entries[i].value < parent
    requires |entries| > 0
    ensures forall i :: 0 <= i < |entries[1..]| ==> entries[1..][i].value < parent
    ensures MaskEntries(entries, true, parent, toText)
      == RenderEntries(entries, toText)[0] + MaskEntries(entries[1..], false, parent, toText)
    ensures MaskEntries(entries, false, parent, toText)
      == ", " + RenderEntries(entries, toText)[0] + MaskEntries(entries[1..], false, parent, toText)
  {
    var e := entries[0];
    var k, d := Stringify(e.key, toText), MaskData(e.value, toText);
    var tail := MaskEntries(entries[1..], false, parent, toText);
    assert RenderEntries(entries, toText)[0] == k + "=" + d;
    assert MaskEntries(entries, true, parent, toText) == "" + k + "=" + d + tail;
    assert MaskEntries(entries, false, parent, toText) == ", " + k + "=" + d + tail;
    Regroup("", k, "=", d, tail);
    Regroup(", ", k, "=", d, tail);
  }

  /** A map renders as `{}` when empty and otherwise as `key=value` entries
      joined by `", "` between braces, in entry order; keys are printed as
      their plain text and are never masked. */
  lemma MapRendering(entries: seq<Entry>, toText: Value -> string)
    ensures MaskData(Map(entries), toText) == "{" + Join(", ", RenderEntries(entries, toText)) + "}"
    ensures |entries| == 0 ==> MaskData(Map(entries), toText) == "{}"
  {
    var v := Map(entries);
    assert forall i :: 0 <= i < |entries| ==> entries[i].value < v by {
      forall i | 0 <= i < |entries| ensures entries[i].value < v {
        assert entries[i] < v;
      }
    }
    MaskEntriesJoin(entries, v, toText);
  }

  // ---------------------------------------------------------------------
  // Objects
  // ---------------------------------------------------------------------

  /** Static and synthetic fields contribute nothing: the field loop prints
      exactly what it prints for the kept fields alone. */
  lemma {:induction false} SkipsStaticAndSynthetic(fields: seq<Field>, first: bool, parent: Value,
                                                   toText: Value -> string)
    requires FieldsBelow(fields, parent)
    ensures FieldsBelow(Kept(fields), parent)
    ensures MaskFields(fields, first, parent, toText) == MaskFields(Kept(fields), first, parent, toText)
  {
    if |fields| > 0 {
      var f, rest := fields[0], fields[1..];
      assert FieldsBelow(rest, parent) by {
        forall i | 0 <= i < |rest| && rest[i].content.Readable?
          ensures rest[i].content.value < parent
        {
          assert rest[i] == fields[i + 1];
        }
      }
      SkipsStaticAndSynthetic(rest, first, parent, toText);
      SkipsStaticAndSynthetic(rest, false, parent, toText);
      if !(f.isStatic || f.isSynthetic) {
        var k := Kept(fields);
        assert k == [f] + Kept(rest);
        assert k[1..] == Kept(rest);
      }
    }
  }

  lemma {:induction false} MaskFieldsJoin(fields: seq<Field>, parent: Value, toText: Value -> string)
    requires FieldsBelow(fields, parent)
    requires NoneSkipped(fields) && AllReadable(fields)
    ensures MaskFields(fields, true, parent, toText) == Join(", ", RenderFields(fields, toText))
    ensures |fields| > 0 ==>
      MaskFields(fields, false, parent, toText) == ", " + Join(", ", RenderFields(fields, toText))
  {
    if |fields| > 0 {
      var parts, rest := RenderFields(fields, toText), fields[1..];
      MaskFieldsUnfold(fields, parent, toText);
      MaskFieldsJoin(rest, parent, toText);
      assert RenderFields(rest, toText) == parts[1..];
      JoinStep(", ", parts, MaskFields(rest, false, parent, toText));
    }
  }

  lemma MaskFieldsUnfold(fields: seq<Field>, parent: Value, toText: Value -> string)
    requires FieldsBelow(fields, parent)
    requires NoneSkipped(fields) && AllReadable(fields)
    requires |fields| > 0
    ensures FieldsBelow(fields[1..], parent)
    ensures NoneSkipped(fields[1..]) && AllReadable(fields[1..])
    ensures MaskFields(fields, true, parent, toText)
      == RenderFields(fields, toText)[0] + MaskFields(fields[1..], false, parent, toText)
    ensures MaskFields(fields, false, parent, toText)
      == ", " + RenderFields(fields, toText)[0] + MaskFields(fields[1..], false, parent, toText)
  {
    var rest := fields[1..];
    assert NoneSkipped(rest) && AllReadable(rest) by {
      forall i | 0 <= i < |rest| ensures rest[i] == fields[i + 1] { }
    }
    var r0, tail := RenderFields(fields, toText)[0], MaskFields(rest, false, parent, toText);
    ReadableFieldStep(fields, true, parent, toText);
    ReadableFieldStep(fields, false, parent, toText);
    assert "" + r0 + tail == r0 + tail;
  }

  /** One turn of the field loop over a readable, kept first field. */
  lemma ReadableFieldStep(fields: seq<Field>, first: bool, parent: Value, toText: Value -> string)
    requires FieldsBelow(fields, parent)
    requires NoneSkipped(fields) && AllReadable(fields)
    requires |fields| > 0
    ensures FieldsBelow(fields[1..], parent)
    ensures MaskFields(fields, first, parent, toText)
      == (if first then "" else ", ") + RenderFields(fields, toText)[0]
         + MaskFields(fields[1..], false, parent, toText)
  {
    var f := fields[0];
    MaskFieldsStep(fields, first, parent, toText);
    var t := FieldText(f.sensitive, f.content.value, toText);
    assert RenderFields(fields, toText)[0] == f.name + "=" + t;
    Regroup(if first then "" else ", ", f.name, "=", t, MaskFields(fields[1..], false, parent, toText));
  }

  /** An unmarked field's value prints exactly as `maskData` prints it: the
      three-way branch (recurse into a composite, plain text for null, a
      primitive or a string) agrees with the engine's own dispatch. */
  lemma UnmarkedFieldIsMaskData(v: Value, toText: Value -> string)
    ensures FieldText(None, v, toText) == MaskData(v, toText)
  {
  }

  /** A marked field's value is masked as text by its strategy, whatever its
      structure. */
  lemma MarkedFieldIsMaskValue(s: Sensitive, v: Value, toText: Value -> string)
    ensures FieldText(Some(s), v, toText) == MaskValue(v, s, toText)
  {
  }

  /** One turn of the field loop, for each kind of field. */
  lemma MaskFieldsStep(fields: seq<Field>, first: bool, parent: Value, toText: Value -> string)
    requires FieldsBelow(fields, parent)
    requires |fields| > 0
    ensures FieldsBelow(fields[1..], parent)
    ensures fields[0].isStatic || fields[0].isSynthetic ==>
      MaskFields(fields, first, parent, toText) == MaskFields(fields[1..], first, parent, toText)
    ensures !fields[0].isStatic && !fields[0].isSynthetic && fields[0].content.Inaccessible? ==>
      MaskFields(fields, first, parent, toText) == "inaccessible" + MaskFields(fields[1..], first, parent, toText)
    ensures !fields[0].isStatic && !fields[0].isSynthetic && fields[0].content.Readable? ==>
      MaskFields(fields, first, parent, toText)
        == (if first then "" else ", ") + fields[0].name + "="
           + FieldText(fields[0].sensitive, fields[0].content.value, toText)
           + MaskFields(fields[1..], false, parent, toText)
  {
    var rest := fields[1..];
    assert FieldsBelow(rest, parent) by {
      forall i | 0 <= i < |rest| && rest[i].content.Readable?
        ensures rest[i].content.value < parent
      {
        assert rest[i] == fields[i + 1];
      }
    }
  }

  /** An object whose non-skipped fields can all be read renders as its
      simple name followed by `name=text` entries for those fields, joined by
      `", "` between braces, in `AllFields` order. */
  lemma ObjectRendering(v: Value, toText: Value -> string)
    requires v.Obj?
    requires AllReadable(Kept(AllFields(v.classes)))
    ensures MaskData(v, toText)
      == v.simpleName + "{" + Join(", ", RenderFields(Kept(AllFields(v.classes)), toText)) + "}"
  {
    var fields := AllFields(v.classes);
    AllFieldsBelow(v);
    SkipsStaticAndSynthetic(fields, true, v, toText);
    MaskFieldsJoin(Kept(fields), v, toText);
  }

  /** True iff some field before index `i` can be read. */
  ghost predicate ReadableBefore(fields: seq<Field>, i: nat)
    requires i <= |fields|
  {
    exists j :: 0 <= j < i && fields[j].content.Readable?
  }

  /** What field `i` of a list of kept fields contributes, by its position
      alone: `inaccessible` when it cannot be read; otherwise `name=text`,
      preceded by `", "` unless no readable field comes before it and the
      loop started as the first (`first`). */
  ghost function FieldPiece(fields: seq<Field>, first: bool, i: nat, toText: Value -> string): string
    requires i < |fields|
  {
    match fields[i].content
    case Inaccessible => "inaccessible"
    case Readable(value) =>
      (if first && !ReadableBefore(fields, i) then "" else ", ")
      + fields[i].name + "=" + FieldText(fields[i].sensitive, value, toText)
  }

  /** Every field's contribution, in order. */
  ghost function FieldPieces(fields: seq<Field>, first: bool, toText: Value -> string): (r: seq<string>)
    ensures |r| == |fields|
  {
    seq(|fields|, i requires 0 <= i < |fields| => FieldPiece(fields, first, i, toText))
  }

  /** A readable field before position `i + 1` is the first field or one
      before position `i` of the rest. */
  lemma ReadableBeforeShift(fields: seq<Field>, i: nat)
    requires i < |fields|
    ensures ReadableBefore(fields, i + 1)
      <==> fields[0].content.Readable? || ReadableBefore(fields[1..], i)
  {
    if ReadableBefore(fields, i + 1) && !fields[0].content.Readable? {
      var j :| 0 <= j < i + 1 && fields[j].content.Readable?;
      assert fields[1..][j - 1] == fields[j];
    }
    if ReadableBefore(fields[1..], i) {
      var j :| 0 <= j < i && fields[1..][j].content.Readable?;
      assert fields[j + 1] == fields[1..][j];
    }
  }

  /** Dropping the first field shifts the pieces by one; the rest start as
      the first only if the dropped field printed nothing readable. */
  lemma FieldPiecesTail(fields: seq<Field>, first: bool, toText: Value -> string)
    requires |fields| > 0
    ensures FieldPieces(fields, first, toText)[1..]
      == FieldPieces(fields[1..], first && !fields[0].content.Readable?, toText)
    ensures FieldPieces(fields, first, toText)[0] == FieldPiece(fields, first, 0, toText)
    ensures !ReadableBefore(fields, 0)
  {
    var rest, first' := fields[1..], first && !fields[0].content.Readable?;
    var ps := FieldPieces(fields, first, toText);
    forall i | 0 <= i < |rest| ensures ps[1..][i] == FieldPieces(rest, first', toText)[i] {
      ReadableBeforeShift(fields, i);
      assert rest[i] == fields[i + 1];
    }
  }

  /** The field loop over kept fields prints the positional pieces one after
      another, readable or not. */
  lemma {:induction false} MaskFieldsPieces(fields: seq<Field>, first: bool, parent: Value,
                                            toText: Value -> string)
    requires FieldsBelow(fields, parent) && NoneSkipped(fields)
    ensures MaskFields(fields, first, parent, toText) == Concat(FieldPieces(fields, first, toText))
  {
    if |fields| > 0 {
      var rest := fields[1..];
      var first' := first && !fields[0].content.Readable?;
      var ps := FieldPieces(fields, first, toText);
      MaskFieldsStep(fields, first, parent, toText);
      assert NoneSkipped(rest) by {
        forall i | 0 <= i < |rest| ensures !rest[i].isStatic && !rest[i].isSynthetic {
          assert rest[i] == fields[i + 1];
        }
      }
      MaskFieldsPieces(rest, first', parent, toText);
      FieldPiecesTail(fields, first, toText);
      assert MaskFields(fields, first, parent, toText) == ps[0] + MaskFields(rest, first', parent, toText);
    }
  }

  /** Every object, including one with fields that cannot be read, renders
      as its simple name and the positional pieces of its kept fields, in
      `AllFields` order, between braces. */
  lemma ObjectRenderingPieces(v: Value, toText: Value -> string)
    requires v.Obj?
    ensures MaskData(v, toText)
      == v.simpleName + "{" + Concat(FieldPieces(Kept(AllFields(v.classes)), true, toText)) + "}"
  {
    var fields := AllFields(v.classes);
    AllFieldsBelow(v);
    SkipsStaticAndSynthetic(fields, true, v, toText);
    MaskFieldsPieces(Kept(fields), true, v, toText);
  }

  // ---------------------------------------------------------------------
  // Strategies applied twice
  // ---------------------------------------------------------------------

  /** FULL masking an already FULL-masked value changes nothing. */
  lemma MaskFullIdempotent(value: string, maskChar: char)
    ensures MaskFull(MaskFull(value, maskChar), maskChar) == MaskFull(value, maskChar)
  {
    var once := MaskFull(value, maskChar);
    if |value| > 0 {
      RepeatUnique(once, maskChar);
      RepeatUnique(MaskFull(once, maskChar), maskChar);
    }
  }

  /** FIRST_LAST masking an already FIRST_LAST-masked value changes nothing. */
  lemma MaskFirstLastIdempotent(value: string, maskChar: char)
    ensures MaskFirstLast(MaskFirstLast(value, maskChar), maskChar) == MaskFirstLast(value, maskChar)
  {
    var once := MaskFirstLast(value, maskChar);
    var twice := MaskFirstLast(once, maskChar);
    if |value| > 2 {
      assert forall i :: 0 <= i < |twice| ==> twice[i] == once[i];
    }
  }

  /** LAST_FOUR masking an already LAST_FOUR-masked value changes nothing. */
  lemma MaskLastFourIdempotent(value: string, maskChar: char)
    ensures MaskLastFour(MaskLastFour(value, maskChar), maskChar) == MaskLastFour(value, maskChar)
  {
    var once := MaskLastFour(value, maskChar);
    var twice := MaskLastFour(once, maskChar);
    if |value| > 4 {
      assert forall i :: |twice| - 4 <= i < |twice| ==> twice[i] == twice[|twice| - 4..][i - (|twice| - 4)];
      assert forall i :: |once| - 4 <= i < |once| ==> once[i] == once[|once| - 4..][i - (|once| - 4)];
      assert forall i :: 0 <= i < |twice| ==> twice[i] == once[i];
    }
  }

  // ---------------------------------------------------------------------
  // What a masked field reveals
  // ---------------------------------------------------------------------

  /** True iff a strategy cannot tell `a` from `b`: same length, and the
      characters it keeps agree. CUSTOM promises nothing, so only equal
      texts count there. */
  ghost predicate SameExposure(strategy: Strategy, a: string, b: string)
  {
    match strategy
    case Full => |a| == |b|
    case FirstLast =>
      |a| == |b| && (|a| <= 2 ==> a == b) && (|a| > 2 ==> a[0] == b[0] && a[|a| - 1] == b[|b| - 1])
    case LastFour =>
      |a| == |b| && (|a| <= 4 ==> a == b) && (|a| > 4 ==> a[|a| - 4..] == b[|b| - 4..])
    case Custom => a == b
  }

  /** A sensitive field's text depends only on what its strategy exposes: two
      non-null values whose texts agree on that render identically, whatever
      their structure (a marked composite is never descended into). */
  lemma SensitiveFieldHidesValue(s: Sensitive, v: Value, w: Value, toText: Value -> string)
    requires v.Null? == w.Null?
    requires !v.Null? ==> SameExposure(s.strategy, Stringify(v, toText), Stringify(w, toText))
    ensures FieldText(Some(s), v, toText) == FieldText(Some(s), w, toText)
  {
    if !v.Null? {
      var a, b := Stringify(v, toText), Stringify(w, toText);
      match s.strategy
      case Full => FullHides(a, b, s.maskChar);
      case FirstLast => FirstLastHides(a, b, s.maskChar);
      case LastFour => LastFourHides(a, b, s.maskChar);
      case Custom =>
    }
  }

  /** FULL reveals the length and nothing else. */
  lemma FullHides(a: string, b: string, maskChar: char)
    requires |a| == |b|
    ensures MaskFull(a, maskChar) == MaskFull(b, maskChar)
  {
    RepeatUnique(MaskFull(a, maskChar), maskChar);
    RepeatUnique(MaskFull(b, maskChar), maskChar);
  }

  /** FIRST_LAST reveals the length and the two end characters. */
  lemma FirstLastHides(a: string, b: string, maskChar: char)
    requires SameExposure(FirstLast, a, b)
    ensures MaskFirstLast(a, maskChar) == MaskFirstLast(b, maskChar)
  {
    var ra, rb := MaskFirstLast(a, maskChar), MaskFirstLast(b, maskChar);
    if |a| > 2 {
      assert forall i :: 0 <= i < |ra| ==> ra[i] == rb[i];
    }
  }

  /** LAST_FOUR reveals the length and the last four characters. */
  lemma LastFourHides(a: string, b: string, maskChar: char)
    requires SameExposure(LastFour, a, b)
    ensures MaskLastFour(a, maskChar) == MaskLastFour(b, maskChar)
  {
    var ra, rb := MaskLastFour(a, maskChar), MaskLastFour(b, maskChar);
    if |a| > 4 {
      assert forall i :: 0 <= i < |ra| - 4 ==> ra[i] == rb[i];
      assert forall i :: |ra| - 4 <= i < |ra| ==> ra[i] == ra[|ra| - 4..][i - (|ra| - 4)];
      assert forall i :: |ra| - 4 <= i < |ra| ==> ra[i] == rb[i];
    }
  }

  /** True iff the field loop cannot tell `f` from `g`. */
  ghost predicate Indistinguishable(f: Field, g: Field, toText: Value -> string)
  {
    && f.name == g.name
    && f.isStatic == g.isStatic
    && f.isSynthetic == g.isSynthetic
    && f.content.Readable? == g.content.Readable?
    && (f.content.Readable? ==>
          FieldText(f.sensitive, f.content.value, toText) == FieldText(g.sensitive, g.content.value, toText))
  }

  lemma {:induction false} MaskFieldsCongruence(fs: seq<Field>, gs: seq<Field>, first: bool,
                                                pf: Value, pg: Value, toText: Value -> string)
    requires FieldsBelow(fs, pf) && FieldsBelow(gs, pg)
    requires |fs| == |gs|
    requires forall i :: 0 <= i < |fs| ==> Indistinguishable(fs[i], gs[i], toText)
    ensures MaskFields(fs, first, pf, toText) == MaskFields(gs, first, pg, toText)
  {
    if |fs| > 0 {
      var fr, gr := fs[1..], gs[1..];
      assert FieldsBelow(fr, pf) by {
        forall i | 0 <= i < |fr| && fr[i].content.Readable? ensures fr[i].content.value < pf {
          assert fr[i] == fs[i + 1];
        }
      }
      assert FieldsBelow(gr, pg) by {
        forall i | 0 <= i < |gr| && gr[i].content.Readable? ensures gr[i].content.value < pg {
          assert gr[i] == gs[i + 1];
        }
      }
      assert forall i :: 0 <= i < |fr| ==> Indistinguishable(fr[i], gr[i], toText) by {
        forall i | 0 <= i < |fr| ensures Indistinguishable(fr[i], gr[i], toText) {
          assert fr[i] == fs[i + 1] && gr[i] == gs[i + 1];
        }
      }
      assert Indistinguishable(fs[0], gs[0], toText);
      MaskFieldsCongruence(fr, gr, first, pf, pg, toText);
      MaskFieldsCongruence(fr, gr, false, pf, pg, toText);
    }
  }

  /** Two objects of the same simple name whose flattened fields are
      pairwise indistinguishable render identically. With
      `SensitiveFieldHidesValue` this says that replacing a marked field's
      value by one its strategy exposes equally cannot change the output:
      the masked part of a sensitive value does not reach the text. */
  lemma ObjectHidesMaskedValues(name: string, c1: seq<ClassDecl>, c2: seq<ClassDecl>,
                                toText: Value -> string)
    requires |AllFields(c1)| == |AllFields(c2)|
    requires forall i :: 0 <= i < |AllFields(c1)| ==>
      Indistinguishable(AllFields(c1)[i], AllFields(c2)[i], toText)
    ensures MaskData(Obj(name, c1), toText) == MaskData(Obj(name, c2), toText)
  {
    AllFieldsBelow(Obj(name, c1));
    AllFieldsBelow(Obj(name, c2));
    MaskFieldsCongruence(AllFields(c1), AllFields(c2), true, Obj(name, c1), Obj(name, c2), toText);
  }

  /** A marked field is indistinguishable from the same field holding any
      value its strategy exposes equally. */
  lemma MarkedFieldsIndistinguishable(f: Field, w: Value, toText: Value -> string)
    requires f.sensitive.Some? && f.content.Readable?
    requires f.content.value.Null? == w.Null?
    requires !w.Null? ==>
      SameExposure(f.sensitive.value.strategy, Stringify(f.content.value, toText), Stringify(w, toText))
    ensures Indistinguishable(f, f.(content := Readable(w)), toText)
  {
    SensitiveFieldHidesValue(f.sensitive.value, f.content.value, w, toText);
  }
}

=== FILE: text.dfy ===
/** Small string utilities shared by the masking strategies and the renderer. */
module Text {

  /** `n` copies of `c`, the model of `String.valueOf(c).repeat(n)`. */
  function Repeat(c: char, n: nat): (r: string)
    ensures |r| == n
    ensures forall i :: 0 <= i < n ==> r[i] == c
  {
    if n == 0 then [] else Repeat(c, n - 1) + [c]
  }

  /** True iff every character of `s` is `c`. */
  predicate AllChar(s: string, c: char)
  {
    forall i :: 0 <= i < |s| ==> s[i] == c
  }

  /** The parts separated by `sep`: the reference shape that the renderer's
      "first element gets no separator" loops are proved to produce. */
  function Join(sep: string, parts: seq<string>): string
  {
    if |parts| == 0 then ""
    else if |parts| == 1 then parts[0]
    else parts[0] + sep + Join(sep, parts[1..])
  }

  /** The parts one after another, with nothing between them. */
  function Concat(parts: seq<string>): string
  {
    if |parts| == 0 then "" else parts[0] + Concat(parts[1..])
  }

  /** A string of one repeated character is determined by its length. */
  lemma RepeatUnique(s: string, c: char)
    requires AllChar(s, c)
    ensures s == Repeat(c, |s|)
  {
  }

  /** One step of a "separator before every part but the first" loop: if
      the loop over the parts after the first yields `rest` (with the
      separator in front when it is not empty), then starting at the first
      part yields their join, and starting later yields it behind `sep`. */
  lemma JoinStep(sep: string, parts: seq<string>, rest: string)
    requires |parts| > 0
    requires rest == if |parts| == 1 then "" else sep + Join(sep, parts[1..])
    ensures parts[0] + rest == Join(sep, parts)
    ensures sep + parts[0] + rest == sep + Join(sep, parts)
  {
    if |parts| > 1 {
      assert Join(sep, parts) == parts[0] + sep + Join(sep, parts[1..]);
      assert parts[0] + (sep + Join(sep, parts[1..])) == parts[0] + sep + Join(sep, parts[1..]);
    }
    assert sep + parts[0] + rest == sep + (parts[0] + rest);
  }

  /** Regrouping a five-piece concatenation around its middle three. */
  lemma Regroup<T>(a: seq<T>, b: seq<T>, c: seq<T>, d: seq<T>, e: seq<T>)
    ensures a + b + c + d + e == a + (b + c + d) + e
  {
  }

  /** A slice of the right operand of a concatenation, seen from outside. */
  lemma SliceOfAppend<T>(a: seq<T>, b: seq<T>, lo: nat, hi: nat)
    requires lo <= hi <= |b|
    ensures (a + b)[|a| + lo..|a| + hi] == b[lo..hi]
    ensures (a + b)[..|a|] == a
  {
  }

  /** Flattening the middle operand of a three-piece concatenation. */
  lemma Enclose3<T>(a: seq<T>, t: seq<T>, z: seq<T>, b: seq<T>, c: seq<T>, d: seq<T>)
    requires t == b + c + d
    ensures a + t + z == a + b + c + d + z
  {
  }

  lemma Enclose4<T>(a: seq<T>, t: seq<T>, z: seq<T>, b: seq<T>, c: seq<T>, d: seq<T>, e: seq<T>)
    requires t == b + c + d + e
    ensures a + t + z == a + b + c + d + e + z
  {
  }

  lemma Enclose5<T>(a: seq<T>, t: seq<T>, z: seq<T>, b: seq<T>, c: seq<T>, d: seq<T>, e: seq<T>, f: seq<T>)
    requires t == b + c + d + e + f
    ensures a + t + z == a + b + c + d + e + f + z
  {
  }

  lemma Enclose6<T>(a: seq<T>, t: seq<T>, z: seq<T>, b: seq<T>, c: seq<T>, d: seq<T>, e: seq<T>, f: seq<T>, g: seq<T>)
    requires t == b + c + d + e + f + g
    ensures a + t + z == a + b + c + d + e + f + g + z
  {
  }

  /** Flattening the right operand of a concatenation of two or four pieces. */
  lemma Flatten2<T>(a: seq<T>, t: seq<T>, b: seq<T>, c: seq<T>)
    requires t == b + c
    ensures a + t == a + b + c
  {
  }

  lemma Flatten4<T>(a: seq<T>, t: seq<T>, b: seq<T>, c: seq<T>, d: seq<T>, e: seq<T>)
    requires t == b + c + d + e
    ensures a + t == a + b + c + d + e
  {
  }
}

=== FILE: values.dfy ===
/** The values the masking engine renders, with everything that reflection
    would discover about them resolved in advance. */
module Values {
  import opened Annotation

  datatype Option<T> = None | Some(value: T)

  /** A rendered value, classified as the engine's dispatch classifies it.
      `Prim` is any primitive, boxed wrapper or `Number` subclass, carrying its
      `toString()` text; `Str` is a `String`; `Coll` any `Collection` in
      iteration order; `Map` any map in entry order; `Arr` any array; `Obj`
      every other object, with its class chain. */
  datatype Value =
    | Null
    | Prim(text: string)
    | Str(s: string)
    | Coll(items: seq<Value>)
    | Map(entries: seq<Entry>)
    | Arr(elems: seq<Value>)
    | Obj(simpleName: string, classes: seq<ClassDecl>)

  /** One map entry. */
  datatype Entry = Entry(key: Value, value: Value)

  /** The fields one class declares, in the order `getDeclaredFields`
      returns them. An object's `classes` lists its runtime class first, then
      each superclass, and stops before `Object`. */
  datatype ClassDecl = ClassDecl(declaredFields: seq<Field>)

  /** A declared field: its modifiers, its resolved marker (if annotated) and
      what reading it on this object yields. */
  datatype Field = Field(
    name: string,
    isStatic: bool,
    isSynthetic: bool,
    sensitive: Option<Sensitive>,
    content: FieldContent)

  /** Reading a field either yields its value or is refused with an
      `IllegalAccessException`. */
  datatype FieldContent = Readable(value: Value) | Inaccessible

  /** The tag that `isPrimitiveOrWrapper` tests (it also accepts `String`). */
  predicate IsPrimitiveOrWrapper(v: Value)
  {
    v.Prim? || v.Str?
  }

  /** `String.valueOf(v)`: `"null"` for null, a leaf's own text, and the
      object's `toString()` otherwise. Arbitrary `toString()` methods are not
      visible to the engine, so they are the parameter `toText`. */
  function Stringify(v: Value, toText: Value -> string): string
  {
    match v
    case Null => "null"
    case Prim(t) => t
    case Str(s) => s
    case _ => toText(v)
  }
}
